=== FILE: README.md ===
# recompose-example: the user-list page core in Dafny

The demo page lists users, lets a visitor select one, and shows that user's
likes and dislikes. Its logic is a chain of prop-stream stages in
`src/components/firstSteps.jsx`:

- the page's `userList` state and its handlers (`withState` / `withHandlers`);
- the loader `load`, which fetches the list when it is empty and reports REQUEST / SUCCESS / ERROR;
- the selector `selectUser`, which seeds the selection from the URL user parameter or the head of the list, then follows manual `userSelect` picks;
- the URL check in `IndexPage`, which pushes `/<name>` when the selection and the URL disagree.

Files:

- `users.dfy` (module `Users`) holds the values: users, like/dislike records (`Entry`), and the pure list transformation behind the delete handlers (`WithoutId`, `DeleteRecord`).
- `user_list_state.dfy` (module `UserListState`) holds the state. `UserObject` is a user object whose `likes` / `dislikes` the handlers overwrite in place. `UserListStore` owns `userList`. `SetUserList` is proved to replace the list by the given users (`Values`). `DeleteLike` and `DeleteDislike` are proved against `DeleteRecord`. `MapStripped`, the `state.map(...)` loop, also works when the same object sits at two positions, because filtering twice by one id is the same as filtering once.
- `loader.dfy` (module `Loader`) describes one props value as an ordered trace of events: `fetchUsers()` calls, emitted values, `setUserList` calls. `Run` strings cycles together.
- `selector.dfy` (module `Selector`) holds the initial selection, the selection stream and its latest value.
- `navigation.dfy` (module `Navigation`) holds the navigation decision, the pathname `history.push` keeps from the pushed string, and the route `/:user?` that reads the parameter back.

Server calls are parameters: `ServerReply` (the delete resolved or was rejected) and `FetchOutcome` (the list fetch returned users or failed).

Some behaviour of the code is easy to miss, and the model follows the code on each point:

- The error handler sits on the outer stream, not on the inner stream of one attempt. After the error value, the loader serves no further props (`Run`, `RunStopsAtFailure`).
- The delete handlers remove every record that has the id, not just one.
- An empty URL parameter is falsy, so it counts as no parameter (`ParamGiven`).
- A user name survives the trip through the URL only when it is non-empty and holds no `/`, `?` or `#` (`ReadBackIff`). A name starting with `/` makes the pushed path start with `//`, which the browser refuses, so the render fails (`PushThrowsIff`). Any other picked user is lost on the next props value (`UnsafeNamePickLost`). The exception is a user that heads the list and reads back as no parameter: the page then pushes again on every render (`HeadPushLoop`).
- After a fetch, the SUCCESS value spreads the old, empty `userList`. It carries the result under `users`, so the fetched users are selected only on the next props value.

## Model

| member | source | states |
|---|---|---|
| `Users.WithoutId` | src/components/firstSteps.jsx:124 | a record survives the filter exactly when it was in the collection and its id differs from the deleted id; the result is never longer |
| `Users.WithoutIdAppend` | src/components/firstSteps.jsx:124 | the filter distributes over concatenation, so the remaining records keep their order |
| `Users.WithoutIdIdempotent` | src/components/firstSteps.jsx:135 | filtering a second time by the same id changes nothing |
| `Users.WithoutIdUnchangedIff` | src/components/firstSteps.jsx:124 | the collection is left as it was exactly when no record has the id |
| `Users.Stripped` | src/components/firstSteps.jsx:123-126 | one user after a delete: the name is kept and the named collection never grows (its exact effect is `DeleteRecordEffect`) |
| `Users.StrippedIdempotent` | src/components/firstSteps.jsx:123-126 | running the callback twice on one user gives the same user as running it once |
| `Users.DeleteRecord` | src/components/firstSteps.jsx:121-139 | the new `userList` after a successful delete, one user per old user, same length (each position is described by `DeleteRecordEffect`) |
| `Users.DeleteRecordEffect` | src/components/firstSteps.jsx:121-128 | after a delete the list has the same length and names in the same order; a matching user's collection is filtered and its other collection is unchanged; other users are unchanged |
| `Users.DeleteRecordIdempotent` | src/components/firstSteps.jsx:130-140 | deleting the same id twice gives the same list as deleting it once |
| `Users.DeleteRecordAbsent` | src/components/firstSteps.jsx:119-129 | deleting an id that no record of the named user carries leaves the list unchanged |
| `Users.DeleteLikeDislikeCommute` | src/components/firstSteps.jsx:119-140 | deleting a like and deleting a dislike give the same list in either order |
| `Users.DeleteLikeExample` | src/components/firstSteps.jsx:119-129 | carol with likes 7 and 8 keeps only 8 after deleting 7, and the other user is untouched |
| `UserListState.UserListStore.constructor` | src/components/firstSteps.jsx:114 | the state starts as the empty list |
| `UserListState.UserListStore.SetUserList` | src/components/firstSteps.jsx:116 | the whole list is replaced by the given users |
| `UserListState.UserListStore.DeleteLike` | src/components/firstSteps.jsx:119-129 | if the server delete was rejected, the state is unchanged; if it resolved, the list holds the same objects in the same order and its value is the like-delete of the old value |
| `UserListState.UserListStore.DeleteDislike` | src/components/firstSteps.jsx:130-140 | the same for dislikes |
| `UserListState.UserListStore.RemoveFromUsers` | src/components/firstSteps.jsx:121-139 | the state becomes the mapped list: the same objects in the same order, whose value is `DeleteRecord` of the old state |
| `UserListState.MapStripped` | src/components/firstSteps.jsx:122-128 | the loop that runs the callback on every user object returns the same objects and leaves them holding exactly `DeleteRecord` of their old value, also when one object sits at several positions |
| `UserListState.UserObject.Strip` | src/components/firstSteps.jsx:123-126 | the callback on one object: its value becomes `Stripped` of its old value, so the named collection is filtered exactly when the name matches |
| `Loader.Attempt` | src/components/firstSteps.jsx:42-50 | the stage for one props value, with what the error handler adds as a parameter: the trace starts with a fetch exactly when `userList` is empty |
| `Loader.Load` | src/components/firstSteps.jsx:38-52 | corrected: the stage whose error handler emits the error value; it fetches first exactly when `userList` is empty, always ends with an emitted value and never stops the stream silently |
| `Loader.LoadAsWritten` | src/components/firstSteps.jsx:50 | as written: it fetches first exactly when `userList` is empty, and no emitted value ever has status ERROR |
| `Loader.Run` | src/components/firstSteps.jsx:38-51 | corrected: the stage over a sequence of props values, stopping after a failed fetch; it is empty only for no props and never stops the stream silently |
| `Loader.LoadProjections` | src/components/firstSteps.jsx:38-52 | for each case (list loaded; empty list with a fetch that succeeds; empty list with a fetch that fails), gives the emitted values, the `setUserList` calls and the number of fetches |
| `Loader.LoadCached` | src/components/firstSteps.jsx:48 | a non-empty list gives exactly one SUCCESS value carrying the incoming props, with no fetch and no `setUserList` call |
| `Loader.LoadFetched` | src/components/firstSteps.jsx:43-46 | an empty list and a successful fetch give REQUEST with the props, then SUCCESS with `users`; `setUserList` is called once with the result, before SUCCESS is emitted |
| `Loader.LoadFailed` | src/components/firstSteps.jsx:50 | corrected: a failed fetch gives REQUEST, then the error value with the service-down message and none of the incoming props; `setUserList` is not called |
| `Loader.LoadAsWrittenNeverReportsError` | src/components/firstSteps.jsx:50 | as written, a failed fetch leaves REQUEST as the only value, and the stream stops with no further value |
| `Loader.LoadCallsBounded` | src/components/firstSteps.jsx:42-48 | one props value fetches once if the list is empty and never otherwise; `setUserList` is called at most as often as a fetch happens |
| `Loader.NextCycleFetchesIff` | src/components/firstSteps.jsx:42-44 | once `setUserList` has stored the fetched list, the next props value fetches again exactly when the server returned an empty list |
| `Loader.RunStopsAtFailure` | src/components/firstSteps.jsx:38-51 | props that arrive after a failed fetch are never served |
| `Loader.RunErrorIsLast` | src/components/firstSteps.jsx:50 | an ERROR value is always the loader's last value |
| `Selector.InitialSelection` | src/components/firstSteps.jsx:59-65 | the value the stream starts with: a selection is always an entry of the list, and without a URL parameter (absent or empty, see `ParamGiven`) there is no selection only for an empty list |
| `Selector.Selections` | src/components/firstSteps.jsx:56-68 | the stream for one props value: one value more than there are picks, every value after the first a selection |
| `Selector.Current` | src/components/firstSteps.jsx:62-68 | the latest value of the stream: a selection is one of the picks or an entry of the list |
| `Selector.InitialSelectionAsWritten` | src/components/firstSteps.jsx:63-65 | as written: evaluating the initial selection throws exactly when the value has no props; otherwise a selection is an entry of its `userList` |
| `Selector.InitialSelectionOf` | src/components/firstSteps.jsx:63-65 | corrected: a value without props selects nobody; a selection is an entry of the value's `userList` |
| `Selector.FindUser` | src/components/firstSteps.jsx:64 | a found entry is in the list and has the name; nothing is found exactly when no entry has the name |
| `Selector.FindUserFirst` | src/components/firstSteps.jsx:64 | the entry found is the first one with the name |
| `Selector.InitialSelectionWithoutParam` | src/components/firstSteps.jsx:62-65 | with no URL parameter, the selection is the head of the list, or none for an empty list |
| `Selector.InitialSelectionWithParam` | src/components/firstSteps.jsx:63-64 | with a URL parameter, the selection is the first entry with that name |
| `Selector.InitialSelectionNoMatch` | src/components/firstSteps.jsx:63-64 | with a URL parameter, there is no selection exactly when no entry has that name |
| `Selector.LatestPickWins` | src/components/firstSteps.jsx:56-68 | the stream starts with the initial selection, then emits `Some(pick)` for each pick in order; the latest pick replaces the initial selection |
| `Selector.ErrorEmissionThrowsAsWritten` | src/components/firstSteps.jsx:63-65 | as written, the loader's error value (no `userList`) makes the initial selection throw |
| `Selector.InitialSelectionOfAgrees` | src/components/firstSteps.jsx:62-66 | corrected, the error value gives no selection, and every value that carries props is treated as written |
| `Selector.FetchedSuccessSelectsNobody` | src/components/firstSteps.jsx:45 | the SUCCESS value that follows a fetch still holds the old, empty `userList`, so it selects nobody |
| `Selector.CachedListSelectsUrlUser` | src/components/firstSteps.jsx:59-65 | a loaded list and a URL parameter naming one of its users select that user, without a fetch |
| `Navigation.NavigationTarget` | src/components/firstSteps.jsx:85-88 | the path pushed on a render, if any (its meaning is stated by `NavigatesIff`) |
| `Navigation.Before` | src/components/firstSteps.jsx:158 | the characters before the first given character: a prefix without it, the whole string when it has none, and otherwise stopping right at its first occurrence |
| `Navigation.Pathname` | src/components/firstSteps.jsx:87 | the pathname `history.push` keeps from the pushed string: a prefix holding no `#` and no `?`, the whole string when it has neither |
| `Navigation.MatchRoute` | src/components/firstSteps.jsx:158 | the route `/:user?` matches exactly the pathnames that start with `/`, by prefix; a parameter is a non-empty segment without `/` that the pathname starts with after its `/` |
| `Navigation.PushedPath` | src/components/firstSteps.jsx:87 | pushing `/<name>` gives the pathname `/` followed by the name's pathname, and the parameter read back is that pathname's first segment |
| `Navigation.ReadBackIff` | src/components/firstSteps.jsx:85-88 | a pushed `/<name>` reads back as the name exactly when the name is non-empty and holds no `/`, `?` or `#`; otherwise it reads back as a strict prefix of the name, or as no parameter exactly when the name is empty or starts with `/`, `?` or `#` (for a name starting with `/` the push itself is refused, `PushThrowsIff`) |
| `Navigation.ParamAfterPush` | src/components/firstSteps.jsx:87 | the URL parameter after a push: when there is one, it is non-empty, holds no `/`, `?` or `#`, and follows a `/` at the start of the pushed string |
| `Navigation.PushThrowsIff` | src/components/firstSteps.jsx:87 | pushing `/<name>` is refused by the browser (the path starts with `//`) exactly when the name starts with `/`; a name without `/`, `?` or `#` is always accepted |
| `Navigation.NavigatesIff` | src/components/firstSteps.jsx:85-88 | a navigation happens exactly when a user is selected whose name differs from the URL parameter, and it goes to `/` followed by the name |
| `Navigation.PushConverges` | src/components/firstSteps.jsx:85-88 | for a non-empty name without `/`, `?` or `#`, the browser accepts the push, the pushed path reads back as that name, and the next render navigates no more |
| `Navigation.HeadPushLoop` | src/components/firstSteps.jsx:56-88 | as written: when the head of the list has a name that reads back as no parameter and whose push the browser accepts (so the name is empty or starts with `?` or `#`), a props value without a parameter selects the head, the render pushes its path, and the next props value again has no parameter, so the push repeats on every render |
| `Navigation.UnsafeNamePickLost` | src/components/firstSteps.jsx:56-88 | after picking a user whose name is empty or holds `/`, `?` or `#`, and whose push the browser accepts, the parameter read back is not the name, and the next props value selects that user exactly when it heads the list and nothing was read back; otherwise the pick is lost |
| `Navigation.NavigationTargetSettled` | src/components/firstSteps.jsx:85-88 | corrected: a push, when there is one, goes to `/` followed by the selected name, is accepted by the browser and changes the URL parameter |
| `Navigation.SettledConverges` | src/components/firstSteps.jsx:85-88 | corrected: the check that pushes only a path the browser accepts, and only when the push changes the URL parameter (`NavigationTargetSettled`), never pushes twice for one selection, never pushes a refused path, agrees with the check as written for every name without `/`, `?` or `#`, and does not push for a name that reads back as no parameter |
| `Navigation.PickRoundTrip` | src/components/firstSteps.jsx:56-88 | picking a user whose name is non-empty and holds no `/`, `?` or `#` navigates to that user's path; on the next props value the same user is selected from the URL and there is no further navigation |

## Left out

- `addLike` / `addDislike` (src/components/firstSteps.jsx:117-118) only pass their arguments to the server and change no local state, so they are not modelled.
- The server calls are not modelled; `./asyncData` is not part of this model. They appear only as outcomes: `ServerReply` for the deletes and `FetchOutcome` for the list fetch.
- Rendering is not modelled: the JSX, the styled components, `Loader`, `InfoTables`, and which list item is marked selected.
- Stream timing is not modelled. `Run` serves each props value to the end before the next one arrives. A later props value that cancels an earlier, still-pending fetch (switch-to-latest) is not captured.
- `LoadFetched`, `FetchedSuccessSelectsNobody`: `setUserList` runs inside `tap`, before the SUCCESS value is emitted. The file imports `render` from `react-dom` (src/components/firstSteps.jsx:3), which mounts a legacy root; the mounting call itself is not part of this model. In a legacy root a state update from a promise callback re-renders synchronously in every React version. The next props value then reaches the switch first, the SUCCESS value carrying `users` is dropped, and the page goes straight to the cached-list SUCCESS. The model keeps that value.
- React's re-render scheduling is not modelled. `AfterSetCalls` takes the stored list to be the next props value.
- The stream and context plumbing is left out: `createEventHandler`, `setObservableConfig`, `withContext` and `withRouter`.
- Props are reduced to `userList` and the URL user parameter. The handlers, `history` and `location` do not appear. The incoming props never carry a `status`, so the REQUEST value's field order is not modelled.
- Selection is by value: a pick is a `User` value, not an object reference.
- `MatchRoute` and `Pathname` model the prefix match of `/:user?` on the pathname that `history.push` keeps after cutting off the hash and the query, including multi-segment paths and trailing slashes. The `decodeURI` of the pathname is not modelled: a name holding `%` may read back decoded (`%41` as `A`) or make the push throw (`100%`), which `ReadBackIff`, `PushConverges` and `PickRoundTrip` do not capture. The route's case or strictness options are not modelled either.

## Findings

| source | as written | input that shows it | evidently intended | confidence | as-written member | corrected member |
|---|---|---|---|---|---|---|
| src/components/firstSteps.jsx:50 | `catchError` is given a function that returns a plain object. The stream library requires a stream, promise, array or iterable, so it throws instead of emitting. | `userList = []` and `fetchUsers()` rejects: the page gets REQUEST and then nothing more: the stream stops and never delivers the ERROR value | emit `{status: 'ERROR', message: 'Looks like our service is down'}` as the stage's final value | medium, not executed; relies on how the stream library handles the handler's return value | `Loader.LoadAsWrittenNeverReportsError` (on `Loader.LoadAsWritten`) | `Loader.LoadFailed` (on `Loader.Load`) |
| src/components/firstSteps.jsx:63-65 | the selector reads `props.userList[0]` when `props.userList` is falsy. The error value carries no `userList`, so this reads index 0 of `undefined`. The fault shows up once the row above is fixed. | the error value `{status: 'ERROR', message: ...}` reaching `selectUser` | treat a missing list as "no selection yet", so the page can show the error message | high, not executed | `Selector.ErrorEmissionThrowsAsWritten` (on `Selector.InitialSelectionAsWritten`) | `Selector.InitialSelectionOfAgrees` (on `Selector.InitialSelectionOf`) |
| src/components/firstSteps.jsx:85-88 | the render pushes `/<name>` whenever the selected name differs from the URL parameter. For a name that reads back as no parameter, the push never makes the two equal. | a list whose first user has an empty name (or a name starting with `?` or `#`) and a URL without a user parameter: each props value selects that user, the render pushes `/` followed by the name, the route reads back no parameter, and the next render pushes again without end | push only a path the browser accepts, and only when the push changes the URL parameter, so the page settles after at most one push | medium, not executed; relies on the router re-rendering the page with new props after each push | `Navigation.HeadPushLoop` (on `Navigation.NavigationTarget`) | `Navigation.SettledConverges` (on `Navigation.NavigationTargetSettled`) |

=== FILE: loader.dfy ===
/** The `load` stage: for each incoming props value, fetch the user list when
    it is empty and report the load status, as an ordered trace of what the
    stage does (fetch, emit, call `setUserList`). */
module Loader {
  import opened Users

  /** The incoming props the core looks at: the `userList` state and the URL
      user parameter supplied by the router (`match.params.user`). */
  datatype Props = Props(userList: seq<User>, urlUser: Option<string>)

  datatype Status = Request | Success | Error

  /** One value the stage emits. `props` is `Some` when the incoming props are
      spread into it and `None` for the error object, which carries none. */
  datatype Emission = Emission(props: Option<Props>, status: Status, users: Option<seq<User>>, message: Option<string>)

  /** How `fetchUsers()` settles. */
  datatype FetchOutcome = Fetched(users: seq<User>) | FetchFailed

  /** One observable step of the stage. `StreamFailed` marks the stream
      stopping: no further value reaches the page. */
  datatype Event = FetchUsers | Emit(emission: Emission) | SetUserList(users: seq<User>) | StreamFailed

  const ServiceDown: string := "Looks like our service is down"

  /** The value `catchError` is meant to produce. */
  const ErrorEmission: Emission := Emission(None, Error, None, Some(ServiceDown))

  function RequestEmission(p: Props): Emission { Emission(Some(p), Request, None, None) }

  /** The trace of one incoming props value, with `onFailure` standing for what
      the error handler contributes once the fetch has failed. */
  function Attempt(p: Props, outcome: FetchOutcome, onFailure: seq<Event>): (t: seq<Event>)
    ensures t != [] && (t[0] == FetchUsers <==> p.userList == [])
  {
    if p.userList == [] then
      [FetchUsers, Emit(RequestEmission(p))]
      + match outcome
        case Fetched(us) => [SetUserList(us), Emit(Emission(Some(p), Success, Some(us), None))]
        case FetchFailed => onFailure
    else
      [Emit(Emission(Some(p), Success, None, None))]
  }

  /** The stage with an error handler that emits the error object. */
  function Load(p: Props, outcome: FetchOutcome): (t: seq<Event>)
    ensures t != [] && (t[0] == FetchUsers <==> p.userList == [])
    ensures t[|t| - 1].Emit? && StreamFailed !in t
  {
    Attempt(p, outcome, [Emit(ErrorEmission)])
  }

  /** The stage as written: the handler returns a plain object where the
      stream library expects a replacement stream. The library throws, the
      error goes to the host's error report, and the stream stops without a
      further value. */
  function LoadAsWritten(p: Props, outcome: FetchOutcome): (t: seq<Event>)
    ensures t != [] && (t[0] == FetchUsers <==> p.userList == [])
    ensures forall k :: 0 <= k < |t| && t[k].Emit? ==> t[k].emission.status != Error
  {
    Attempt(p, outcome, [StreamFailed])
  }

  /** The emitted values of a trace, in order. */
  function Emissions(t: seq<Event>): seq<Emission>
  {
    if t == [] then [] else (if t[0].Emit? then [t[0].emission] else []) + Emissions(t[1..])
  }

  /** The arguments of the `setUserList` calls of a trace, in order. */
  function SetCalls(t: seq<Event>): seq<seq<User>>
  {
    if t == [] then [] else (if t[0].SetUserList? then [t[0].users] else []) + SetCalls(t[1..])
  }

  /** The number of `fetchUsers()` calls of a trace. */
  function Fetches(t: seq<Event>): nat
  {
    if t == [] then 0 else (if t[0] == FetchUsers then 1 else 0) + Fetches(t[1..])
  }

  lemma {:induction false} EmissionsAppend(a: seq<Event>, b: seq<Event>)
    ensures Emissions(a + b) == Emissions(a) + Emissions(b)
  {
    if a == [] {
      assert a + b == b;
    } else {
      assert (a + b)[0] == a[0] && (a + b)[1..] == a[1..] + b;
      EmissionsAppend(a[1..], b);
    }
  }

  lemma {:induction false} SetCallsAppend(a: seq<Event>, b: seq<Event>)
    ensures SetCalls(a + b) == SetCalls(a) + SetCalls(b)
  {
    if a == [] {
      assert a + b == b;
    } else {
      assert (a + b)[0] == a[0] && (a + b)[1..] == a[1..] + b;
      SetCallsAppend(a[1..], b);
    }
  }

  lemma {:induction false} FetchesAppend(a: seq<Event>, b: seq<Event>)
    ensures Fetches(a + b) == Fetches(a) + Fetches(b)
  {
    if a == [] {
      assert a + b == b;
    } else {
      assert (a + b)[0] == a[0] && (a + b)[1..] == a[1..] + b;
      FetchesAppend(a[1..], b);
    }
  }

  /** Every projection distributes over concatenation of traces. */
  lemma ProjectionsAppend(a: seq<Event>, b: seq<Event>)
    ensures Emissions(a + b) == Emissions(a) + Emissions(b)
    ensures SetCalls(a + b) == SetCalls(a) + SetCalls(b)
    ensures Fetches(a + b) == Fetches(a) + Fetches(b)
  {
    EmissionsAppend(a, b);
    SetCallsAppend(a, b);
    FetchesAppend(a, b);
  }

  lemma ProjectionsOne(e: Event)
    ensures Emissions([e]) == (if e.Emit? then [e.emission] else [])
    ensures SetCalls([e]) == (if e.SetUserList? then [e.users] else [])
    ensures Fetches([e]) == (if e == FetchUsers then 1 else 0)
  {
    assert [e][1..] == [];
  }

  /** What one incoming props value leads to, for every outcome of the fetch. */
  lemma LoadProjections(p: Props, outcome: FetchOutcome)
    ensures p.userList != [] ==>
      && Emissions(Load(p, outcome)) == [Emission(Some(p), Success, None, None)]
      && SetCalls(Load(p, outcome)) == [] && Fetches(Load(p, outcome)) == 0
    ensures p.userList == [] && outcome.Fetched? ==>
      && Emissions(Load(p, outcome)) == [RequestEmission(p), Emission(Some(p), Success, Some(outcome.users), None)]
      && SetCalls(Load(p, outcome)) == [outcome.users] && Fetches(Load(p, outcome)) == 1
    ensures p.userList == [] && outcome.FetchFailed? ==>
      && Emissions(Load(p, outcome)) == [RequestEmission(p), ErrorEmission]
      && SetCalls(Load(p, outcome)) == [] && Fetches(Load(p, outcome)) == 1
  {
    if p.userList != [] {
      LoadCached(p, outcome);
    } else {
      match outcome
      case Fetched(us) => LoadFetched(p, us);
      case FetchFailed => LoadFailed(p);
    }
  }

  /** The first two events of a fetching load, projected. */
  lemma RequestProjections(p: Props)
    ensures var head := [FetchUsers, Emit(RequestEmission(p))];
      Emissions(head) == [RequestEmission(p)] && SetCalls(head) == [] && Fetches(head) == 1
  {
    ProjectionsOne(FetchUsers);
    ProjectionsOne(Emit(RequestEmission(p)));
    ProjectionsAppend([FetchUsers], [Emit(RequestEmission(p))]);
    assert [FetchUsers] + [Emit(RequestEmission(p))] == [FetchUsers, Emit(RequestEmission(p))];
  }

  /** A non-empty `userList` is answered by one SUCCESS emission holding the
      incoming props; nothing is fetched and `setUserList` is not called. */
  lemma LoadCached(p: Props, outcome: FetchOutcome)
    requires p.userList != []
    ensures Emissions(Load(p, outcome)) == [Emission(Some(p), Success, None, None)]
    ensures Fetches(Load(p, outcome)) == 0 && SetCalls(Load(p, outcome)) == []
  {
    var t := Load(p, outcome);
    assert t == [Emit(Emission(Some(p), Success, None, None))];
    ProjectionsOne(t[0]);
  }

  /** An empty `userList` and a successful fetch: REQUEST with the incoming
      props, then SUCCESS with `users`; `setUserList` is called once, with the
      result, before the SUCCESS value is emitted. */
  lemma LoadFetched(p: Props, users: seq<User>)
    requires p.userList == []
    ensures Emissions(Load(p, Fetched(users)))
         == [Emission(Some(p), Request, None, None), Emission(Some(p), Success, Some(users), None)]
    ensures SetCalls(Load(p, Fetched(users))) == [users] && Fetches(Load(p, Fetched(users))) == 1
    ensures Load(p, Fetched(users))[2] == SetUserList(users) && Load(p, Fetched(users))[3].Emit?
  {
    var head := [FetchUsers, Emit(RequestEmission(p))];
    var done := Emit(Emission(Some(p), Success, Some(users), None));
    assert Load(p, Fetched(users)) == head + [SetUserList(users), done];
    RequestProjections(p);
    ProjectionsOne(SetUserList(users));
    ProjectionsOne(done);
    ProjectionsAppend([SetUserList(users)], [done]);
    assert [SetUserList(users)] + [done] == [SetUserList(users), done];
    ProjectionsAppend(head, [SetUserList(users), done]);
  }

  /** An empty `userList` and a failed fetch: REQUEST, then the error object,
      which carries the service-down message and none of the incoming props. */
  lemma LoadFailed(p: Props)
    requires p.userList == []
    ensures Emissions(Load(p, FetchFailed)) == [Emission(Some(p), Request, None, None), ErrorEmission]
    ensures ErrorEmission.props == None && ErrorEmission.status == Error
    ensures ErrorEmission.message == Some("Looks like our service is down")
    ensures SetCalls(Load(p, FetchFailed)) == [] && Fetches(Load(p, FetchFailed)) == 1
  {
    var head := [FetchUsers, Emit(RequestEmission(p))];
    assert Load(p, FetchFailed) == head + [Emit(ErrorEmission)];
    RequestProjections(p);
    ProjectionsOne(Emit(ErrorEmission));
    ProjectionsAppend(head, [Emit(ErrorEmission)]);
  }

  /** As written, a failed fetch leaves REQUEST as the only value: no ERROR
      status ever reaches the page, and the stream stops. */
  lemma LoadAsWrittenNeverReportsError(p: Props)
    requires p.userList == []
    ensures Emissions(LoadAsWritten(p, FetchFailed)) == [Emission(Some(p), Request, None, None)]
    ensures LoadAsWritten(p, FetchFailed)[|LoadAsWritten(p, FetchFailed)| - 1] == StreamFailed
  {
    var head := [FetchUsers, Emit(RequestEmission(p))];
    ProjectionsOne(FetchUsers);
    ProjectionsOne(Emit(RequestEmission(p)));
    ProjectionsOne(StreamFailed);
    ProjectionsAppend([FetchUsers], [Emit(RequestEmission(p))]);
    assert [FetchUsers] + [Emit(RequestEmission(p))] == head;
    ProjectionsAppend(head, [StreamFailed]);
  }

  /** At most one fetch per incoming props value, and `setUserList` only after a fetch. */
  lemma LoadCallsBounded(p: Props, outcome: FetchOutcome)
    ensures Fetches(Load(p, outcome)) == (if p.userList == [] then 1 else 0)
    ensures |SetCalls(Load(p, outcome))| <= Fetches(Load(p, outcome))
  {
    LoadProjections(p, outcome);
  }

  /** The props of the next cycle, once the last `setUserList` call of a trace
      has replaced the state. */
  function AfterSetCalls(p: Props, t: seq<Event>): Props
  {
    var calls := SetCalls(t);
    if calls == [] then p else p.(userList := calls[|calls| - 1])
  }

  /** After a successful fetch, the next cycle fetches again exactly when the
      server returned an empty list; otherwise loading has settled. */
  lemma NextCycleFetchesIff(p: Props, users: seq<User>, next: FetchOutcome)
    requires p.userList == []
    ensures Fetches(Load(AfterSetCalls(p, Load(p, Fetched(users))), next)) == 0 <==> users != []
  {
    LoadProjections(p, Fetched(users));
    LoadCallsBounded(AfterSetCalls(p, Load(p, Fetched(users))), next);
  }

  /** One incoming props value and how its fetch (if any) settles. */
  datatype Cycle = Cycle(props: Props, outcome: FetchOutcome)

  predicate FetchFails(c: Cycle)
  {
    c.props.userList == [] && c.outcome.FetchFailed?
  }

  /** The stage over a sequence of incoming props values, each served to the
      end before the next arrives. The error handler sits on the outer stream,
      so after the error object the stage serves no further props. */
  function Run(cycles: seq<Cycle>): (t: seq<Event>)
    ensures StreamFailed !in t
    ensures t == [] <==> cycles == []
  {
    if cycles == [] then []
    else if FetchFails(cycles[0]) then Load(cycles[0].props, cycles[0].outcome)
    else Load(cycles[0].props, cycles[0].outcome) + Run(cycles[1..])
  }

  /** Props arriving after a failed fetch are never served. */
  lemma {:induction false} RunStopsAtFailure(cycles: seq<Cycle>, j: int)
    requires 0 <= j < |cycles| && FetchFails(cycles[j])
    ensures Run(cycles) == Run(cycles[..j + 1])
  {
    if j > 0 && !FetchFails(cycles[0]) {
      assert cycles[1..][..j] == cycles[..j + 1][1..];
      RunStopsAtFailure(cycles[1..], j - 1);
    }
  }

  /** The error object, when emitted, is the stage's last value. */
  lemma {:induction false} RunErrorIsLast(cycles: seq<Cycle>, k: int)
    requires 0 <= k < |Emissions(Run(cycles))| && Emissions(Run(cycles))[k].status == Error
    ensures k == |Emissions(Run(cycles))| - 1
  {
    var c := cycles[0];
    var first := Load(c.props, c.outcome);
    if FetchFails(c) {
      LoadFailed(c.props);
    } else {
      if c.props.userList != [] {
        LoadCached(c.props, c.outcome);
      } else {
        LoadFetched(c.props, c.outcome.users);
      }
      var rest := Run(cycles[1..]);
      var here := Emissions(first);
      assert Run(cycles) == first + rest;
      EmissionsAppend(first, rest);
      assert forall i :: 0 <= i < |here| ==> here[i].status != Error;
      assert k >= |here|;
      assert Emissions(Run(cycles))[k] == Emissions(rest)[k - |here|];
      RunErrorIsLast(cycles[1..], k - |here|);
    }
  }
}

=== FILE: navigation.dfy ===
/** The URL reconciliation the page performs on every render, the way the
    history object turns a pushed string into a pathname, and the route
    `/:user?` that turns the pathname back into the URL user parameter. */
module Navigation {
  import opened Users
  import opened Selector

  /** How a path meets the route `/:user?`. */
  datatype RouteMatch = NoMatch | Matched(param: Option<string>)

  /** The characters of `s` before its first `c`. */
  function Before(s: string, c: char): (r: string)
    ensures c !in r && r <= s
    ensures c !in s ==> r == s
    ensures c in s ==> |r| < |s| && s[|r|] == c
  {
    if s == [] || s[0] == c then [] else [s[0]] + Before(s[1..], c)
  }

  /** The pathname `history.push` takes from the string it is given: the hash
      (from the first `#`) is cut off, then the query (from the first `?`). */
  function Pathname(pushed: string): (r: string)
    ensures '#' !in r && '?' !in r && r <= pushed
    ensures '#' !in pushed && '?' !in pushed ==> r == pushed
  {
    var noHash := Before(pushed, '#');
    var r := Before(noHash, '?');
    assert forall k :: 0 <= k < |r| ==> r[k] == noHash[k] == pushed[k];
    r
  }

  /** The route `/:user?`, which is not exact and so matches by prefix: any
      pathname starting with `/` matches, and the parameter is the first
      segment when that segment is non-empty (`/a/b` gives `a`, `/bob/` gives
      `bob`, `/` gives none). A pathname not starting with `/` does not match. */
  function MatchRoute(path: string): (r: RouteMatch)
    ensures r.Matched? <==> path != [] && path[0] == '/'
    ensures r.Matched? && r.param.Some? ==> r.param.value != "" && '/' !in r.param.value && "/" + r.param.value <= path
  {
    if path == [] || path[0] != '/' then NoMatch
    else
      var seg := Before(path[1..], '/');
      assert path == "/" + path[1..];
      Matched(if seg == "" then None else Some(seg))
  }

  /** The URL user parameter the page sees after pushing `pushed`: a
      non-empty piece of the pushed string right after a `/`, holding no `/`,
      `?` or `#`. */
  function ParamAfterPush(pushed: string): (r: Option<string>)
    ensures r.Some? ==> r.value != "" && '/' !in r.value && '?' !in r.value && '#' !in r.value
    ensures r.Some? ==> "/" + r.value <= pushed
  {
    match MatchRoute(Pathname(pushed))
    case NoMatch => None
    case Matched(param) => param
  }

  /** A name that survives the trip through the URL: non-empty, and holding
      none of `/` (a segment boundary), `?` (a query) and `#` (a hash). */
  predicate PathSafe(name: string)
  {
    name != "" && '/' !in name && '?' !in name && '#' !in name
  }

  /** The browser refuses a pushed path that starts with `//`: it reads it as
      an address on another host (or as no address at all), `pushState`
      throws, and the render that pushed fails. */
  predicate PushThrows(pushed: string)
  {
    |pushed| >= 2 && pushed[0] == '/' && pushed[1] == '/'
  }

  /** The path the render pushes, if any: `/<name>` of the selected user when
      it differs from the URL user parameter. */
  function NavigationTarget(selected: Option<User>, param: Option<string>): Option<string>
  {
    match selected
    case None => None
    case Some(u) => if param == Some(u.user) then None else Some("/" + u.user)
  }

  /** A navigation happens exactly when a user is selected whose name differs
      from the URL parameter, and it goes to `/` followed by that name. */
  lemma NavigatesIff(selected: Option<User>, param: Option<string>)
    ensures NavigationTarget(selected, param).Some? <==> selected.Some? && param != Some(selected.value.user)
    ensures NavigationTarget(selected, param).Some? ==> NavigationTarget(selected, param).value == "/" + selected.value.user
  {
  }

  /** Pushing `/<name>`: the pathname is `/` followed by the name's pathname,
      and the parameter read back is that pathname's first segment. */
  lemma PushedPath(name: string)
    ensures Pathname("/" + name) == "/" + Pathname(name)
    ensures ParamAfterPush("/" + name)
         == (if Before(Pathname(name), '/') == "" then None else Some(Before(Pathname(name), '/')))
  {
    var s := "/" + name;
    assert s[0] == '/' && s[1..] == name;
    assert Before(s, '#') == "/" + Before(name, '#');
    var noHash := Before(s, '#');
    assert noHash[0] == '/' && noHash[1..] == Before(name, '#');
    assert Before(noHash, '?') == "/" + Before(Before(name, '#'), '?');
    assert ("/" + Pathname(name))[1..] == Pathname(name);
  }

  /** The name is read back exactly when it is path-safe; otherwise what comes
      back is a strict prefix of it, or nothing at all when the name is empty
      or starts with `/`, `?` or `#`. */
  lemma {:induction false} ReadBackIff(name: string)
    ensures ParamAfterPush("/" + name) == Some(name) <==> PathSafe(name)
    ensures !PathSafe(name) && ParamAfterPush("/" + name).Some? ==>
      ParamAfterPush("/" + name).value < name
    ensures ParamAfterPush("/" + name).None? <==>
      name == "" || name[0] == '/' || name[0] == '?' || name[0] == '#'
  {
    PushedPath(name);
    var path := Pathname(name);
    var seg := Before(path, '/');
    assert seg <= path <= name;
    if PathSafe(name) {
      assert path == name && seg == name;
    } else if name != "" {
      assert path != name || '/' in path;
      assert |seg| < |name|;
    }
    if name != "" && name[0] != '/' && name[0] != '?' && name[0] != '#' {
      assert Before(name, '#')[0] == name[0];
      assert path[0] == name[0];
      assert seg[0] == name[0];
    }
  }

  /** Pushing `/<name>` throws exactly when the name starts with `/`; a
      path-safe name is always accepted. */
  lemma PushThrowsIff(name: string)
    ensures PushThrows("/" + name) <==> name != "" && name[0] == '/'
    ensures PathSafe(name) ==> !PushThrows("/" + name)
  {
    if name != "" {
      assert ("/" + name)[1] == name[0];
    }
  }

  /** The browser accepts the push of `/<name>` for a path-safe name, the
      route reads the name back, and the next render with the same selection pushes nothing. */
  lemma PushConverges(u: User, param: Option<string>)
    requires PathSafe(u.user)
    requires NavigationTarget(Some(u), param).Some?
    ensures !PushThrows(NavigationTarget(Some(u), param).value)
    ensures ParamAfterPush(NavigationTarget(Some(u), param).value) == Some(u.user)
    ensures NavigationTarget(Some(u), ParamAfterPush(NavigationTarget(Some(u), param).value)) == None
  {
    ReadBackIff(u.user);
    PushThrowsIff(u.user);
  }

  /** A picked user whose name is not path-safe, and whose push the browser
      accepts, is lost on the next props value: the parameter read back is not
      the name, and the selector picks that user again only when it heads the
      list and nothing was read back. (A push the browser refuses makes the
      render fail instead: `PushThrowsIff`.) */
  lemma UnsafeNamePickLost(userList: seq<User>, k: int, param: Option<string>)
    requires 0 <= k < |userList| && UniqueNames(userList)
    requires !PathSafe(userList[k].user)
    requires NavigationTarget(Some(userList[k]), param).Some?
    requires !PushThrows(NavigationTarget(Some(userList[k]), param).value)
    ensures var back := ParamAfterPush(NavigationTarget(Some(userList[k]), param).value);
      && back != Some(userList[k].user)
      && (InitialSelection(userList, back) == Some(userList[k]) <==> k == 0 && back == None)
  {
    var name := userList[k].user;
    ReadBackIff(name);
    var back := ParamAfterPush("/" + name);
    if back.Some? {
      PushedPath(name);
      assert back.value != "";
    } else if k != 0 {
      assert userList[0].user != userList[k].user;
    }
  }

  /** The push loop: when the head of the list has a name that reads back as
      no parameter and whose push the browser accepts (the name is empty or
      starts with `?` or `#`), a props value without a parameter selects the
      head, the render pushes its path, and the props value that follows again
      has no parameter, so the same push repeats on every render. */
  lemma HeadPushLoop(userList: seq<User>)
    requires userList != [] && ParamAfterPush("/" + userList[0].user) == None
    requires !PushThrows("/" + userList[0].user)
    ensures InitialSelection(userList, None) == Some(userList[0])
    ensures NavigationTarget(InitialSelection(userList, None), None) == Some("/" + userList[0].user)
    ensures ParamAfterPush(NavigationTarget(InitialSelection(userList, None), None).value) == None
    ensures var name := userList[0].user; name == "" || name[0] == '?' || name[0] == '#'
  {
    ReadBackIff(userList[0].user);
    PushThrowsIff(userList[0].user);
  }

  /** The check corrected: push only a path the browser accepts, and only
      when the push would change the URL parameter, that is when the
      parameter read back from the pushed path differs from the current one. */
  function NavigationTargetSettled(selected: Option<User>, param: Option<string>): (r: Option<string>)
    ensures r.Some? ==> selected.Some? && r.value == "/" + selected.value.user
    ensures r.Some? ==> !PushThrows(r.value) && ParamAfterPush(r.value) != param
  {
    match selected
    case None => None
    case Some(u) =>
      var path := "/" + u.user;
      if PushThrows(path) || ParamAfterPush(path) == param then None else Some(path)
  }

  /** The corrected check always settles: after its push, the next render with
      the same selection pushes nothing. It never pushes a path the browser
      refuses, agrees with the check as written for every path-safe name, and
      stops the head-of-list loop. */
  lemma SettledConverges(selected: Option<User>, param: Option<string>)
    ensures NavigationTargetSettled(selected, param).Some? ==>
      NavigationTargetSettled(selected, ParamAfterPush(NavigationTargetSettled(selected, param).value)) == None
    ensures NavigationTargetSettled(selected, param).Some? ==> !PushThrows(NavigationTargetSettled(selected, param).value)
    ensures selected.Some? && PathSafe(selected.value.user) ==>
      NavigationTargetSettled(selected, param) == NavigationTarget(selected, param)
    ensures selected.Some? && ParamAfterPush("/" + selected.value.user) == None ==>
      NavigationTargetSettled(selected, None) == None
  {
    if selected.Some? {
      ReadBackIff(selected.value.user);
      PushThrowsIff(selected.value.user);
    }
  }

  /** Picking a user with a path-safe name: the render navigates to that
      user's path, the route reads the name back, the next props value starts
      with that user selected, and no further navigation follows. */
  lemma PickRoundTrip(userList: seq<User>, k: int, param: Option<string>, earlier: seq<User>)
    requires 0 <= k < |userList| && UniqueNames(userList)
    requires PathSafe(userList[k].user)
    requires param != Some(userList[k].user)
    ensures var picked := Current(userList, param, earlier + [userList[k]]);
      && picked == Some(userList[k])
      && NavigationTarget(picked, param) == Some("/" + userList[k].user)
      && ParamAfterPush("/" + userList[k].user) == Some(userList[k].user)
      && InitialSelection(userList, Some(userList[k].user)) == Some(userList[k])
      && NavigationTarget(InitialSelection(userList, Some(userList[k].user)), Some(userList[k].user)) == None
  {
    var u := userList[k];
    LatestPickWins(userList, param, earlier + [u]);
    PushConverges(u, param);
    InitialSelectionWithParam(userList, u.user, k);
  }
}

=== FILE: selector.dfy ===
/** The `selectUser` stage: the selection a props value starts with (from the
    URL user parameter or the head of the list) and the manual selections that
    follow it. */
module Selector {
  import opened Users
  import opened Loader

  /** `list.find(u => u.user === name)`: the first entry with that name. */
  function FindUser(list: seq<User>, name: string): (r: Option<User>)
    ensures r.Some? ==> r.value in list && r.value.user == name
    ensures r.None? <==> forall k :: 0 <= k < |list| ==> list[k].user != name
  {
    if list == [] then None
    else if list[0].user == name then Some(list[0])
    else FindUser(list[1..], name)
  }

  /** The entry `FindUser` returns is the first one with the name. */
  lemma {:induction false} FindUserFirst(list: seq<User>, name: string, k: int)
    requires 0 <= k < |list| && list[k].user == name
    requires forall j :: 0 <= j < k ==> list[j].user != name
    ensures FindUser(list, name) == Some(list[k])
  {
    if k > 0 {
      FindUserFirst(list[1..], name, k - 1);
    }
  }

  /** The URL parameter takes part only when it is a non-empty string: the
      empty string is falsy, like an absent parameter. */
  predicate ParamGiven(urlUser: Option<string>)
  {
    urlUser.Some? && urlUser.value != ""
  }

  /** The value the selection stream starts with for one props value. */
  function InitialSelection(userList: seq<User>, urlUser: Option<string>): (r: Option<User>)
    ensures r.Some? ==> r.value in userList
    ensures r.None? && !ParamGiven(urlUser) ==> userList == []
  {
    if ParamGiven(urlUser) then FindUser(userList, urlUser.value)
    else if userList == [] then None
    else Some(userList[0])
  }

  /** Without a URL parameter the selection is the head of the list, or none
      when the list is empty. */
  lemma InitialSelectionWithoutParam(userList: seq<User>, urlUser: Option<string>)
    requires !ParamGiven(urlUser)
    ensures userList != [] ==> InitialSelection(userList, urlUser) == Some(userList[0])
    ensures userList == [] ==> InitialSelection(userList, urlUser) == None
  {
  }

  /** With a URL parameter the selection is the first entry of that name, or
      none when no entry has it. */
  lemma InitialSelectionWithParam(userList: seq<User>, name: string, k: int)
    requires name != "" && 0 <= k < |userList| && userList[k].user == name
    requires forall j :: 0 <= j < k ==> userList[j].user != name
    ensures InitialSelection(userList, Some(name)) == Some(userList[k])
  {
    FindUserFirst(userList, name, k);
  }

  lemma InitialSelectionNoMatch(userList: seq<User>, name: string)
    requires name != ""
    ensures InitialSelection(userList, Some(name)) == None
        <==> forall k :: 0 <= k < |userList| ==> userList[k].user != name
  {
  }

  /** The values of the selection stream for one props value: the initial
      selection followed by every manual `userSelect` pick, in order. */
  function Selections(userList: seq<User>, urlUser: Option<string>, picks: seq<User>): (s: seq<Option<User>>)
    ensures |s| == |picks| + 1
    ensures forall k :: 0 < k < |s| ==> s[k].Some?
  {
    seq(|picks| + 1, k requires 0 <= k <= |picks| =>
      if k == 0 then InitialSelection(userList, urlUser) else Some(picks[k - 1]))
  }

  /** The selection the page shows: the stream's latest value. */
  function Current(userList: seq<User>, urlUser: Option<string>, picks: seq<User>): (r: Option<User>)
    ensures r.Some? ==> r.value in picks || r.value in userList
  {
    var s := Selections(userList, urlUser, picks);
    s[|s| - 1]
  }

  /** The latest manual pick wins; with no pick the initial selection stands. */
  lemma LatestPickWins(userList: seq<User>, urlUser: Option<string>, picks: seq<User>)
    ensures picks != [] ==> Current(userList, urlUser, picks) == Some(picks[|picks| - 1])
    ensures picks == [] ==> Current(userList, urlUser, picks) == InitialSelection(userList, urlUser)
    ensures |Selections(userList, urlUser, picks)| == |picks| + 1
    ensures Selections(userList, urlUser, picks)[0] == InitialSelection(userList, urlUser)
    ensures forall k :: 0 <= k < |picks| ==> Selections(userList, urlUser, picks)[k + 1] == Some(picks[k])
  {
  }

  /** Evaluating the initial selection either gives a selection or throws. */
  datatype Evaluation = Selected(selection: Option<User>) | TypeError

  /** The initial selection as written, applied to an emission of the loader:
      an emission without props has no `userList`, so indexing it throws. */
  function InitialSelectionAsWritten(e: Emission): (r: Evaluation)
    ensures r == TypeError <==> e.props.None?
    ensures r.Selected? && r.selection.Some? ==> r.selection.value in e.props.value.userList
  {
    match e.props
    case None => TypeError
    case Some(p) => Selected(InitialSelection(p.userList, p.urlUser))
  }

  /** The initial selection with a missing list read as "no selection yet". */
  function InitialSelectionOf(e: Emission): (r: Option<User>)
    ensures r.Some? ==> e.props.Some? && r.value in e.props.value.userList
  {
    match e.props
    case None => None
    case Some(p) => InitialSelection(p.userList, p.urlUser)
  }

  /** As written, the error object of a failed load throws in this stage. */
  lemma ErrorEmissionThrowsAsWritten(p: Props)
    requires p.userList == []
    ensures var es := Emissions(Load(p, FetchFailed));
      |es| == 2 && InitialSelectionAsWritten(es[1]) == TypeError
  {
    LoadFailed(p);
  }

  /** Corrected, the error object yields no selection, and every emission that
      carries props is treated exactly as before. */
  lemma InitialSelectionOfAgrees(e: Emission)
    ensures e.props.Some? ==> InitialSelectionAsWritten(e) == Selected(InitialSelectionOf(e))
    ensures e.props.None? ==> InitialSelectionOf(e) == None
    ensures InitialSelectionOf(ErrorEmission) == None
  {
  }

  /** The SUCCESS value after a fetch spreads the old, empty `userList` and
      carries the result under `users`, so it selects nobody; the fetched users
      are selected only on the next props value. */
  lemma FetchedSuccessSelectsNobody(p: Props, users: seq<User>)
    requires p.userList == []
    ensures var es := Emissions(Load(p, Fetched(users)));
      |es| == 2 && es[1].status == Success && InitialSelectionOf(es[1]) == None
  {
    LoadFetched(p, users);
  }

  /** A loaded list and a URL parameter naming one of its users: that user is
      selected and nothing is fetched. */
  lemma CachedListSelectsUrlUser(p: Props, k: int, outcome: FetchOutcome)
    requires 0 <= k < |p.userList| && p.urlUser == Some(p.userList[k].user) && p.userList[k].user != ""
    requires UniqueNames(p.userList)
    ensures Fetches(Load(p, outcome)) == 0
    ensures var es := Emissions(Load(p, outcome));
      |es| == 1 && es[0].status == Success && InitialSelectionOf(es[0]) == Some(p.userList[k])
  {
    LoadCached(p, outcome);
    FindUserFirst(p.userList, p.userList[k].user, k);
  }
}

=== FILE: user_list_state.dfy ===
/** The `userList` state owned by the page (`withState`) and the handlers that
    change it (`withHandlers`). Users are objects: the delete handlers build a
    new outer list but overwrite `likes` / `dislikes` on the existing user
    objects, so every list holding those objects sees the change. */
module UserListState {
  import opened Users

  /** How the server call behind a handler ended. */
  datatype ServerReply = Resolved | Rejected

  /** One user object as the list holds it. */
  class UserObject {
    const user: string
    var likes: seq<Entry>
    var dislikes: seq<Entry>

    constructor (user: string, likes: seq<Entry>, dislikes: seq<Entry>)
      ensures Value() == User(user, likes, dislikes)
    {
      this.user := user;
      this.likes := likes;
      this.dislikes := dislikes;
    }

    /** The callback of `state.map(...)` on this object: when the name matches,
        `likes = likes.filter(...)` (or the same on `dislikes`) in place. */
    method Strip(kind: Kind, name: string, id: int)
      modifies this
      ensures Value() == Stripped(old(Value()), kind, name, id)
    {
      if user == name {
        match kind
        case Likes => likes := WithoutId(likes, id);
        case Dislikes => dislikes := WithoutId(dislikes, id);
      }
    }

    /** The user's current value. */
    function Value(): User
      reads this
    {
      User(user, likes, dislikes)
    }
  }

  /** The values currently held by a list of user objects. */
  function Values(objs: seq<UserObject>): (vs: seq<User>)
    reads objs
    ensures |vs| == |objs|
    ensures forall k :: 0 <= k < |objs| ==> vs[k] == objs[k].Value()
  {
    if objs == [] then [] else [objs[0].Value()] + Values(objs[1..])
  }

  /** Objects that each hold the stripped value of their position hold the
      deleted list. */
  lemma ValuesStripped(objs: seq<UserObject>, before: seq<User>, kind: Kind, name: string, id: int)
    requires |before| == |objs|
    requires forall k :: 0 <= k < |objs| ==> objs[k].Value() == Stripped(before[k], kind, name, id)
    ensures Values(objs) == DeleteRecord(before, kind, name, id)
  {
  }

  /** `state.map(user => ...)` inside the delete handlers: strips each user
      object of the given name in place and returns a new list of the same
      objects. The same object may sit at several positions; it is then
      filtered more than once, which the filter's idempotence absorbs. */
  method MapStripped(state: seq<UserObject>, kind: Kind, name: string, id: int) returns (next: seq<UserObject>)
    modifies state
    ensures next == state
    ensures Values(next) == DeleteRecord(old(Values(state)), kind, name, id)
  {
    ghost var before := Values(state);
    assert forall j, k :: 0 <= j < |state| && 0 <= k < |state| && state[j] == state[k] ==> before[j] == before[k];
    var i := 0;
    while i < |state|
      invariant 0 <= i <= |state| && |before| == |state|
      invariant forall k :: 0 <= k < |state| ==>
        state[k].Value() == before[k] || state[k].Value() == Stripped(before[k], kind, name, id)
      invariant forall k :: 0 <= k < i ==> state[k].Value() == Stripped(before[k], kind, name, id)
    {
      var u := state[i];
      StrippedIdempotent(before[i], kind, name, id);
      label Visit:
      u.Strip(kind, name, id);
      forall k | 0 <= k < |state|
        ensures state[k].Value() == before[k] || state[k].Value() == Stripped(before[k], kind, name, id)
        ensures k <= i ==> state[k].Value() == Stripped(before[k], kind, name, id)
      {
        if state[k] == u {
          assert before[k] == before[i];
        } else {
          assert state[k].Value() == old@Visit(state[k].Value());
        }
      }
      i := i + 1;
    }
    ValuesStripped(state, before, kind, name, id);
    // Each callback returns its own user, so the new list holds the same objects.
    next := state;
  }

  class UserListStore {
    var userList: seq<UserObject>

    /** The state starts as the empty list. */
    constructor ()
      ensures userList == [] && Snapshot() == []
    {
      userList := [];
    }

    /** The value of the state: every user as it is now. */
    function Snapshot(): seq<User>
      reads this, userList
    {
      Values(userList)
    }

    /** `setUserList(users)`: replaces the whole list. */
    method SetUserList(users: seq<UserObject>)
      modifies this
      ensures userList == users
      ensures Snapshot() == Values(users)
    {
      userList := users;
    }

    /** `deleteLike(user, like)`: once the server delete has resolved, removes
        every like with `like.id` from each user named `name`. */
    method DeleteLike(name: string, like: Entry, reply: ServerReply)
      modifies this, userList
      ensures userList == old(userList)
      ensures reply == Rejected ==> Snapshot() == old(Snapshot())
      ensures reply == Resolved ==> Snapshot() == DeleteRecord(old(Snapshot()), Likes, name, like.id)
    {
      if reply == Resolved {
        RemoveFromUsers(Likes, name, like.id);
      }
    }

    /** `deleteDislike(user, dislike)`: the same on the dislikes. */
    method DeleteDislike(name: string, dislike: Entry, reply: ServerReply)
      modifies this, userList
      ensures userList == old(userList)
      ensures reply == Rejected ==> Snapshot() == old(Snapshot())
      ensures reply == Resolved ==> Snapshot() == DeleteRecord(old(Snapshot()), Dislikes, name, dislike.id)
    {
      if reply == Resolved {
        RemoveFromUsers(Dislikes, name, dislike.id);
      }
    }

    /** The `updateUserList(state => [...state.map(...)])` step shared by both
        delete handlers: the state becomes the mapped list. */
    method RemoveFromUsers(kind: Kind, name: string, id: int)
      modifies this, userList
      ensures userList == old(userList)
      ensures Snapshot() == DeleteRecord(old(Snapshot()), kind, name, id)
    {
      var next := MapStripped(userList, kind, name, id);
      userList := next;
    }
  }

  /** The worked example on objects: after the resolved delete, carol's own
      object holds only like 8, seen through any list that holds it. */
  method DeleteLikeObjectsExample()
  {
    var seven, eight := Entry(7, "seven"), Entry(8, "eight");
    var carol := new UserObject("carol", [seven, eight], []);
    var dave := new UserObject("dave", [seven], [eight]);
    var store := new UserListStore();
    var fetched := [carol, dave];
    store.SetUserList(fetched);
    ghost var dave0 := dave.Value();
    assert store.Snapshot() == [User("carol", [seven, eight], []), dave0];
    store.DeleteLike("carol", seven, Resolved);
    Users.DeleteLikeExample(seven, eight, dave0);
    assert store.Snapshot() == [User("carol", [eight], []), dave0];
    assert carol.likes == store.Snapshot()[0].likes == [eight];
    assert dave.Value() == store.Snapshot()[1] == dave0;
    assert store.userList == fetched;
  }

  /** A delete the server rejects leaves every object as it was. */
  method RejectedDeleteExample()
  {
    var eight := Entry(8, "eight");
    var dave := new UserObject("dave", [], [eight]);
    var store := new UserListStore();
    store.SetUserList([dave]);
    assert store.Snapshot() == [User("dave", [], [eight])];
    store.DeleteDislike("dave", eight, Rejected);
    assert store.Snapshot() == [User("dave", [], [eight])];
    assert dave.dislikes == [eight];
  }
}

=== FILE: users.dfy ===
/** Values of the user list: users, their like/dislike records, and the pure
    list transformation behind the `deleteLike` / `deleteDislike` handlers. */
module Users {

  datatype Option<T> = None | Some(value: T)

  /** A like or dislike record. `id` is assigned by the server; `info` stands
      for the rest of the record, which the core never inspects. */
  datatype Entry = Entry(id: int, info: string)

  /** One element of `userList`: the user's name and two ordered collections. */
  datatype User = User(user: string, likes: seq<Entry>, dislikes: seq<Entry>)

  /** No two entries of the list share a name. */
  predicate UniqueNames(list: seq<User>)
  {
    forall i, j :: 0 <= i < j < |list| ==> list[i].user != list[j].user
  }

  /** Which of a user's two collections a handler works on. */
  datatype Kind = Likes | Dislikes

  function EntriesOf(u: User, kind: Kind): seq<Entry>
  {
    match kind
    case Likes => u.likes
    case Dislikes => u.dislikes
  }

  /** `es.filter(e => e.id !== id)`: every record whose id differs, in order. */
  function WithoutId(es: seq<Entry>, id: int): (r: seq<Entry>)
    ensures |r| <= |es|
    ensures forall e :: e in r <==> e in es && e.id != id
  {
    if es == [] then []
    else if es[0].id != id then [es[0]] + WithoutId(es[1..], id)
    else WithoutId(es[1..], id)
  }

  /** The filter distributes over concatenation, so the surviving records keep
      their relative order. */
  lemma {:induction false} WithoutIdAppend(a: seq<Entry>, b: seq<Entry>, id: int)
    ensures WithoutId(a + b, id) == WithoutId(a, id) + WithoutId(b, id)
  {
    if a == [] {
      assert a + b == b;
    } else {
      assert (a + b)[0] == a[0];
      assert (a + b)[1..] == a[1..] + b;
      WithoutIdAppend(a[1..], b, id);
    }
  }

  /** Filtering twice by the same id is the same as filtering once. */
  lemma {:induction false} WithoutIdIdempotent(es: seq<Entry>, id: int)
    ensures WithoutId(WithoutId(es, id), id) == WithoutId(es, id)
  {
    if es != [] {
      WithoutIdIdempotent(es[1..], id);
      if es[0].id != id {
        var r := [es[0]] + WithoutId(es[1..], id);
        assert r[0] == es[0] && r[1..] == WithoutId(es[1..], id);
      }
    }
  }

  /** The filter leaves the collection as it was exactly when no record carries the id. */
  lemma {:induction false} WithoutIdUnchangedIff(es: seq<Entry>, id: int)
    ensures WithoutId(es, id) == es <==> forall k :: 0 <= k < |es| ==> es[k].id != id
  {
    if es != [] {
      WithoutIdUnchangedIff(es[1..], id);
      if es[0].id == id {
        assert |WithoutId(es[1..], id)| <= |es[1..]| < |es|;
      } else {
        assert forall k :: 1 <= k < |es| ==> es[k] == es[1..][k - 1];
        assert (forall k :: 0 <= k < |es| ==> es[k].id != id)
          <==> (forall k :: 0 <= k < |es[1..]| ==> es[1..][k].id != id);
        assert es == [es[0]] + es[1..];
      }
    }
  }

  /** The user after the handler ran: the named collection loses every record
      with the id when the name matches; otherwise the user is as it was. */
  function Stripped(u: User, kind: Kind, name: string, id: int): (r: User)
    ensures r.user == u.user
    ensures |EntriesOf(r, kind)| <= |EntriesOf(u, kind)|
  {
    if u.user != name then u
    else match kind
      case Likes => u.(likes := WithoutId(u.likes, id))
      case Dislikes => u.(dislikes := WithoutId(u.dislikes, id))
  }

  /** Stripping a user twice is the same as stripping once. */
  lemma StrippedIdempotent(u: User, kind: Kind, name: string, id: int)
    ensures Stripped(Stripped(u, kind, name, id), kind, name, id) == Stripped(u, kind, name, id)
  {
    WithoutIdIdempotent(u.likes, id);
    WithoutIdIdempotent(u.dislikes, id);
  }

  /** The new `userList` after a successful delete: `state.map(...)` over every user. */
  function DeleteRecord(list: seq<User>, kind: Kind, name: string, id: int): (r: seq<User>)
    ensures |r| == |list|
  {
    seq(|list|, k requires 0 <= k < |list| => Stripped(list[k], kind, name, id))
  }

  /** What a successful delete does to each position of the list. */
  lemma DeleteRecordEffect(list: seq<User>, kind: Kind, name: string, id: int, k: int)
    requires 0 <= k < |list|
    ensures |DeleteRecord(list, kind, name, id)| == |list|
    ensures DeleteRecord(list, kind, name, id)[k].user == list[k].user
    ensures list[k].user == name ==>
      EntriesOf(DeleteRecord(list, kind, name, id)[k], kind) == WithoutId(EntriesOf(list[k], kind), id)
    ensures list[k].user != name ==> DeleteRecord(list, kind, name, id)[k] == list[k]
    ensures kind == Likes ==> DeleteRecord(list, kind, name, id)[k].dislikes == list[k].dislikes
    ensures kind == Dislikes ==> DeleteRecord(list, kind, name, id)[k].likes == list[k].likes
  {
  }

  /** Deleting the same id twice gives the same list as deleting it once. */
  lemma DeleteRecordIdempotent(list: seq<User>, kind: Kind, name: string, id: int)
    ensures DeleteRecord(DeleteRecord(list, kind, name, id), kind, name, id)
         == DeleteRecord(list, kind, name, id)
  {
    var once := DeleteRecord(list, kind, name, id);
    forall k | 0 <= k < |list|
      ensures Stripped(once[k], kind, name, id) == once[k]
    {
      WithoutIdIdempotent(list[k].likes, id);
      WithoutIdIdempotent(list[k].dislikes, id);
    }
  }

  /** A delete whose id no record of the named user carries changes nothing. */
  lemma DeleteRecordAbsent(list: seq<User>, kind: Kind, name: string, id: int)
    requires forall k, j :: 0 <= k < |list| && list[k].user == name && 0 <= j < |EntriesOf(list[k], kind)|
               ==> EntriesOf(list[k], kind)[j].id != id
    ensures DeleteRecord(list, kind, name, id) == list
  {
    forall k | 0 <= k < |list|
      ensures Stripped(list[k], kind, name, id) == list[k]
    {
      WithoutIdUnchangedIff(EntriesOf(list[k], kind), id);
    }
  }

  /** Deleting a like and deleting a dislike can happen in either order. */
  lemma DeleteLikeDislikeCommute(list: seq<User>, likeUser: string, likeId: int, dislikeUser: string, dislikeId: int)
    ensures DeleteRecord(DeleteRecord(list, Likes, likeUser, likeId), Dislikes, dislikeUser, dislikeId)
         == DeleteRecord(DeleteRecord(list, Dislikes, dislikeUser, dislikeId), Likes, likeUser, likeId)
  {
  }

  /** The worked example: carol has likes 7 and 8; deleting 7 leaves 8, and dave is untouched. */
  lemma DeleteLikeExample(seven: Entry, eight: Entry, dave: User)
    requires seven.id == 7 && eight.id == 8 && dave.user != "carol"
    ensures DeleteRecord([User("carol", [seven, eight], []), dave], Likes, "carol", 7)
         == [User("carol", [eight], []), dave]
  {
    assert WithoutId([seven, eight], 7) == [eight] by {
      assert [seven, eight][1..] == [eight];
      assert [eight][1..] == [];
    }
  }
}
